=== FILE: README.md ===
# Gripper suspension force-sensor receiver — Dafny model

This project models the polling engine of the gripper suspension's force
sensor (`GripSuspension` in `Gripper_suspension/Gripper_suspension_resiver.py`).
A worker thread reads ASCII lines such as `$+x1.5 -x0.2 +y0.0 -y0.7;` from a
serial port. For each line it feeds one recursive (Kalman) filter per axis
(+x, −x, +y, −y) and subtracts a per-axis zero offset. It builds a force
vector from the four readings and appends the result to a bounded history.
Other threads never touch the port directly. They call decorated methods
(`connect`, `disconnect`, `send_to_serial`), and those calls are only recorded
in a deferred-call queue. The loop runs at most one recorded call per tick,
before it reads the port. Zero calibration (`set_zero`, `no_zero`) and
`latest_val` are called directly.

The model is functional. `Acquisition.Engine` is an immutable record of the
engine state:

- the connection;
- four filter states;
- four offsets;
- the history and its capacity;
- the graph sink's log;
- the queue;
- the lines written to the port;
- whether the thread is still alive.

One pass of the loop body is the pure function `Acquisition.Tick`. Its input
`Acquisition.TickInput` splits the incoming lines in two. `arrived` holds the
lines that come in during the sleep, before the queued call runs. `late` holds
the lines that come in after the call and while the read loop still finds data
waiting. The loop re-checks `in_waiting` on every pass (line 77), so it reads
those lines in the same tick.

Modules, in dependency order:

- `Wrappers` — `Option` and `Result`.
- `Text` — Python's `strip()`, `replace(c, '')` and `split()`, using Python's
  whitespace set.
- `Axes` — the per-axis container `Quad`, the filter state, and `Sensor`. A
  `Sensor` holds what the model takes as given: `float(...)` on a token
  suffix, one filter update, and the filter constructor.
- `Calibration` — offsets: applying them, `set_zero`'s rule, and the
  corrected rule (see Findings).
- `FrameParser` — `Clean` (strip, drop every `$` and `;`, strip again), `Tokens`
  (the `split()` of `Text.Words` on the cleaned line), `Suffix` (`token[2:]`)
  and the axis-by-axis feed of one line.
- `ForceVector` — the summed axis arms and the requested length.
- `History` — push with drop-oldest eviction, and `latest`.
- `Commands` — the three parallel lists, FIFO order, and Python argument
  binding.
- `Acquisition` — the engine: constructor, line and tick processing, the
  three deferred operations, and zeroing.

Behaviour of the code worth knowing, which the model follows:

- A malformed line is not side-effect free. The filters of the axes before
  the failing token have already consumed their readings.
- Lines need not have exactly four tokens. Tags are never checked, and
  tokens after the fourth are ignored. Every `$` and `;` is removed, not only
  the leading and trailing ones.
- A failed `connect` (SerialException) leaves the previous connection in
  place. It does not leave the engine disconnected.
- `send_to_serial` with no port changes nothing. The exception object is
  built but never raised.
- `data_buffer=0` is ignored, because the keyword is read by truthiness. A
  negative capacity keeps the history empty forever, because each push is an
  append followed by a pop.

## Model

| member | source | states |
|---|---|---|
| Text.Strip | Gripper_suspension/Gripper_suspension_resiver.py:82 | the stripped line is a contiguous slice of the line with only whitespace before and after it, and it neither starts nor ends with whitespace |
| Text.StripEmpty | Gripper_suspension/Gripper_suspension_resiver.py:82-84 | a line is skipped as empty exactly when it is all whitespace |
| Text.Remove | Gripper_suspension/Gripper_suspension_resiver.py:85-86 | every occurrence of the character is gone, nothing is added, and a string without it is unchanged |
| Text.RemoveKeepsOthers | Gripper_suspension/Gripper_suspension_resiver.py:85-86 | every other character survives removal as often as it occurred |
| Text.RemoveAppend | Gripper_suspension/Gripper_suspension_resiver.py:85-86 | removal works piecewise on a concatenation |
| Text.WordsAreWords | Gripper_suspension/Gripper_suspension_resiver.py:88 | every piece the split returns is non-empty and whitespace-free |
| Text.WordsOfJoin | Gripper_suspension/Gripper_suspension_resiver.py:88 | splitting words joined by single spaces gives back exactly those words |
| FrameParser.Suffix | Gripper_suspension/Gripper_suspension_resiver.py:89-95 | a token of two or more characters is its two-character tag followed by the suffix; a shorter token gives the empty suffix |
| FrameParser.TokensOfWireLine | Gripper_suspension/Gripper_suspension_resiver.py:84-88 | a line in wire layout `$t0 t1 … tn;` is non-empty after stripping and cleans and splits into exactly its tokens |
| FrameParser.Feed | Gripper_suspension/Gripper_suspension_resiver.py:89-96 | axes are fed in token order. A frame results iff every remaining token exists and parses. Each axis filter advances iff it and all earlier tokens parsed. Each field is the filter output less the axis offset |
| FrameParser.ParseLine | Gripper_suspension/Gripper_suspension_resiver.py:84-96 | a frame results iff the stripped line is non-empty and tokens 0–3 exist and parse. Filter k has consumed token k iff tokens 0..k all parsed. Field k is filter k's output less offset k |
| FrameParser.AcceptedHasFourTokens | Gripper_suspension/Gripper_suspension_resiver.py:88-96 | an accepted line has at least four tokens |
| FrameParser.FailureAdvancesEarlierAxes | Gripper_suspension/Gripper_suspension_resiver.py:89-96 | a line failing at token i yields no frame. Filters 0..i−1 have consumed their readings, and filters i..3 are untouched |
| FrameParser.OnlySuffixesMatter | Gripper_suspension/Gripper_suspension_resiver.py:88-96 | two lines whose first four tokens have equal suffixes after the 2-character tag give identical results: tags are unchecked and extra tokens unread |
| FrameParser.FrameTokensReadings | Gripper_suspension/Gripper_suspension_resiver.py:89-95 | dropping the two-character tag of each frame token reads exactly that axis's number |
| FrameParser.AcceptedFrameIsApplied | Gripper_suspension/Gripper_suspension_resiver.py:89-96 | an accepted line's frame is its four filtered values with the offsets applied, axis by axis |
| FrameParser.ReadingsFeed | Gripper_suspension/Gripper_suspension_resiver.py:89-96 | tokens whose first four suffixes read given numbers give a frame, and each axis filter is fed exactly its own number |
| FrameParser.WireLineFrame | Gripper_suspension/Gripper_suspension_resiver.py:84-96 | a well-formed line with four numeric suffixes yields a frame. Each field is that axis's filter output on its number less its offset, and every filter is fed exactly its own number |
| Calibration.ZeroFromDoublesSteadyReading | Gripper_suspension/Gripper_suspension_resiver.py:154-159 | as written, after zeroing, the same filtered reading x under prior offset o reads 2x − o, not 0 |
| Calibration.ZeroFromCounterexample | Gripper_suspension/Gripper_suspension_resiver.py:154-159 | with no prior offset and a steady +x reading of 1.0, +x reads 2.0 after zeroing |
| Calibration.ZeroCorrectedCancelsSteadyReading | Gripper_suspension/Gripper_suspension_resiver.py:154-159 | with the corrected rule, the reading current when zeroing reads 0 on every axis |
| ForceVector.Load | Gripper_suspension/Gripper_suspension_resiver.py:103-104 | the total absolute load is exactly \|+x\|+\|−x\|+\|+y\|+\|−y\|. It is never negative, is 0 exactly when all four fields are 0, and bounds the size of each summed component |
| ForceVector.Build | Gripper_suspension/Gripper_suspension_resiver.py:97-104 | the summed arms are (+x − (−x), +y − (−y), +x + (−x) + +y + (−y)). The requested length is exactly \|+x\|+\|−x\|+\|+y\|+\|−y\|, as handed to `set_length`. It is ≥ 0, is 0 iff all four fields are 0, and bounds each component |
| ForceVector.BuildNegate | Gripper_suspension/Gripper_suspension_resiver.py:97-104 | flipping every sign flips the direction and keeps the requested length |
| ForceVector.BuildMirror | Gripper_suspension/Gripper_suspension_resiver.py:97-104 | swapping +x and −x mirrors the x component and keeps z and the length |
| History.Push | Gripper_suspension/Gripper_suspension_resiver.py:106-110 | for capacity ≥ 1 and a buffer within it: the result stays within capacity and ends with the new entry. A full buffer loses exactly its oldest entry with the rest in order; otherwise nothing is removed. Capacity ≤ 0 keeps an empty buffer empty |
| History.PushAllKeepsNewest | Gripper_suspension/Gripper_suspension_resiver.py:106-110 | after any run of pushes the buffer is exactly the newest `capacity` entries of all it has seen, oldest first |
| History.SixIntoFive | Gripper_suspension/Gripper_suspension_resiver.py:106-110 | with capacity 5, six pushes leave entries 2–6 in order, and the sixth is the latest |
| History.Latest | Gripper_suspension/Gripper_suspension_resiver.py:151-152 | fails with IndexError exactly on an empty buffer; otherwise it is the buffer's last element |
| History.LatestAfterPush | Gripper_suspension/Gripper_suspension_resiver.py:151-152 | after a push, the latest entry is the one pushed |
| Commands.Enqueue | Gripper_suspension/Gripper_suspension_resiver.py:17-21 | recording a call appends it to the tail of the queue's calls, leaves the rest in place, and keeps the three lists equal in length |
| Commands.Dequeue | Gripper_suspension/Gripper_suspension_resiver.py:67-70 | popping yields nothing iff nothing is queued. Otherwise it yields the oldest call, and the remaining queue holds the others in order with equal-length lists |
| Commands.EnqueueAll | Gripper_suspension/Gripper_suspension_resiver.py:14-23 | recording calls one after another appends them in order |
| Commands.DrainCalls | Gripper_suspension/Gripper_suspension_resiver.py:67-70 | popping until empty yields the queued calls in queue order |
| Commands.FifoOrder | Gripper_suspension/Gripper_suspension_resiver.py:67-70 | calls recorded on top of a backlog run after it, in recording order |
| Commands.Bind | Gripper_suspension/Gripper_suspension_resiver.py:71 | binding succeeds iff there are no more positional arguments than parameters, every keyword names a parameter not filled positionally, and every other parameter has a keyword. Positional values come first, keyword values after |
| Commands.Fill | Gripper_suspension/Gripper_suspension_resiver.py:71 | parameters from j onward bind iff each one not given positionally has a keyword, taking the positional value when there is one |
| Commands.BindPositional | Gripper_suspension/Gripper_suspension_resiver.py:71 | one positional argument per parameter and no keywords bind in order |
| Commands.BindRefusesDuplicate | Gripper_suspension/Gripper_suspension_resiver.py:71 | a keyword repeating a positionally given parameter is a TypeError |
| Acquisition.Create | Gripper_suspension/Gripper_suspension_resiver.py:28-57 | construction fails iff a port and baudrate are given and opening raises. Otherwise: the invariant holds, the history is empty, offsets are 0, and all four filters are built with variances 1e-2 and 0.05². The pending queue is kept, a port is attached iff both port and baudrate were given, and it is then that device at that baudrate, open, with no lines waiting. Capacity is 5 iff `data_buffer` is absent, 0 or 5, and is `data_buffer` whenever it is given and non-zero |
| Acquisition.Request | Gripper_suspension/Gripper_suspension_resiver.py:17-21 | calling a decorated method only appends the call to the queue; no other part of the state changes |
| Acquisition.ProcessLine | Gripper_suspension/Gripper_suspension_resiver.py:78-115 | a garbled line changes nothing. Otherwise the filters move as parsing got. A rejected line leaves history and sink alone. An accepted frame's entry is pushed onto the history, so it becomes the latest entry, and is appended to the sink; with no sink there is still none. Offsets, port and queue never change, and the invariant is kept |
| Acquisition.ProcessLines | Gripper_suspension/Gripper_suspension_resiver.py:77-115 | reading lines touches only filters, history and sink, and keeps the invariant |
| Acquisition.IoPhase | Gripper_suspension/Gripper_suspension_resiver.py:73-115 | with no port nothing happens. With a port, it opens it and reads exactly the lines that were waiting, then the lines that arrive while it reads, in order, leaving none unread; offsets, queue and written lines are unchanged |
| Acquisition.ConnectTo | Gripper_suspension/Gripper_suspension_resiver.py:117-125 | success attaches a fresh open port. A SerialException leaves the whole state, the previous connection included, unchanged. Any other exception stops the loop without touching the connection |
| Acquisition.DisconnectPort | Gripper_suspension/Gripper_suspension_resiver.py:127-131 | the connection ends as none, nothing else changes, and with no port it is a no-op |
| Acquisition.SendTo | Gripper_suspension/Gripper_suspension_resiver.py:133-141 | with no port nothing changes. With a port, the same port (same device and baudrate) is opened if closed. A string is written with a newline and the unread input is dropped. Non-string text stops the loop, leaving the port's unread input in place |
| Acquisition.RunCall | Gripper_suspension/Gripper_suspension_resiver.py:67-71 | an unbindable call stops the loop and changes nothing else. A bound `connect` runs with its two bound values, a bound `disconnect` drops the port, and a bound `send_to_serial` sends its one bound value. No call touches filters, offsets, history, sink or queue |
| Acquisition.RunNext | Gripper_suspension/Gripper_suspension_resiver.py:67-71 | with an empty queue nothing happens. Otherwise exactly the oldest call is removed and run, and readings are untouched |
| Acquisition.Deliver | Gripper_suspension/Gripper_suspension_resiver.py:65 | lines arriving during the sleep queue up, in order, behind those already waiting on an open port, and are lost otherwise |
| Acquisition.Tick | Gripper_suspension/Gripper_suspension_resiver.py:64-115 | a stopped loop does nothing, and a stopped loop is never restarted. A live tick removes exactly the oldest pending call, if any, and never changes offsets or capacity. A tick that keeps the loop alive leaves an attached port with no unread lines. The invariant is kept |
| Acquisition.Run | Gripper_suspension/Gripper_suspension_resiver.py:64-71 | over n ticks the queue loses a prefix of at most n calls, in order. While the loop stays alive it loses exactly min(n, queued) calls. A stopped loop stays stopped and changes nothing, and the invariant (equal-length queue lists, an attached port is open, the history within capacity) is kept |
| Acquisition.DisconnectBeforeRead | Gripper_suspension/Gripper_suspension_resiver.py:64-77 | a queued disconnect runs before the read, so nothing is read that tick, whether it arrived before or after the call |
| Acquisition.SendDiscardsPendingInput | Gripper_suspension/Gripper_suspension_resiver.py:133-141 | a queued send runs before the read. It writes the text with a newline and drops unread the lines waiting before the send. The tick then reads exactly the lines arriving after the send, and with none, history and filters are unchanged. The connection afterwards is the same open port with nothing waiting |
| Acquisition.IdleTickReadsEverything | Gripper_suspension/Gripper_suspension_resiver.py:73-115 | with nothing queued and a port attached, a tick reads every waiting line, then every line arriving during the sleep and during the read, in order |
| Acquisition.UnboundCallStopsLoop | Gripper_suspension/Gripper_suspension_resiver.py:67-71 | a call whose arguments do not bind is consumed and stops the loop before any read |
| Acquisition.FailedConnectKeepsPort | Gripper_suspension/Gripper_suspension_resiver.py:117-125 | a connect failing with a SerialException keeps the previous connection and the loop alive. With a port, the tick then reads every waiting line, then every line arriving during the sleep and during the read, in order; with none, only the call is consumed |
| Acquisition.ConnectTickAttaches | Gripper_suspension/Gripper_suspension_resiver.py:64-77 | a connect that opens its port replaces the connection before the read. The lines waiting on the old port, or arriving during the sleep, are never read. The tick reads exactly the lines arriving on the new port after it opens; with none, only the connection and queue change |
| Acquisition.LatestVal | Gripper_suspension/Gripper_suspension_resiver.py:151-152 | IndexError exactly on an empty history; otherwise the newest entry of the history |
| Acquisition.SetZero | Gripper_suspension/Gripper_suspension_resiver.py:154-159 | IndexError exactly on an empty history. Otherwise each offset becomes the negation of the latest frame's field, and nothing else changes |
| Acquisition.SetZeroTwice | Gripper_suspension/Gripper_suspension_resiver.py:154-159 | zeroing twice with no new frame in between leaves the same offsets |
| Acquisition.SetZeroThenLine | Gripper_suspension/Gripper_suspension_resiver.py:154-159 | as written, after zeroing, each field of the next accepted line is its filtered value plus the latest frame's field |
| Acquisition.SetZeroCorrected | Gripper_suspension/Gripper_suspension_resiver.py:154-159 | corrected zeroing: IndexError exactly on an empty history. Otherwise each new offset is the latest field plus the old offset, and nothing else changes |
| Acquisition.SetZeroCorrectedThenSteadyLine | Gripper_suspension/Gripper_suspension_resiver.py:154-159 | with corrected zeroing, a line with the filtered values behind the latest frame reads 0 on every axis |
| Acquisition.NoZero | Gripper_suspension/Gripper_suspension_resiver.py:161-165 | all four offsets become 0 and nothing else changes |
| Acquisition.NoZeroThenLine | Gripper_suspension/Gripper_suspension_resiver.py:161-165 | after `no_zero`, an accepted line's frame is exactly its four filtered values, whatever offsets were set before |

## Findings

| source | as written | input that shows it | evidently intended | confidence | as-written member | corrected member |
|---|---|---|---|---|---|---|
| Gripper_suspension/Gripper_suspension_resiver.py:154-159 | each offset is set to the negation of the latest frame field, and fields are computed as filtered value minus offset | no prior offsets and a steady +x filter output of 1.0: the latest +x field is 1.0 and the offset becomes −1.0, so the next frame reads 1.0 − (−1.0) = 2.0 | the offset becomes the filtered value behind the latest field (field + previous offset), so an unchanged load reads 0 after zeroing | medium; not executed | Calibration.ZeroFromCounterexample | Calibration.ZeroCorrectedCancelsSteadyReading |

The engine's `Acquisition.SetZero` keeps the as-written rule because it
models the code. `Acquisition.SetZeroCorrected` is the same operation with
the corrected rule, and `Acquisition.SetZeroCorrectedThenSteadyLine` proves
the intended property at engine level. The corrected rule is not idempotent.
A second call without a new frame adds the latest field again, because that
field was taken under the earlier offsets. Zeroing twice without a new frame
keeps the offsets only under the rule as written (`Acquisition.SetZeroTwice`).

## Left out

- Thread lifecycle: `start`, `run_available`, the sleep interval and `terminate_thread`. The model is one tick at a time and has no clock. A tick on a stopped loop does nothing.
- Concurrency: `latest_val` and `set_zero` run on the caller's thread and race with the loop's appends in the code. The model applies them between ticks.
- Concurrency of the call queue: a decorated call's three appends (lines 17-19) are taken to be atomic with respect to the loop's three pops (lines 68-70). In the code they can interleave: the loop can pop a function whose arguments are not yet appended, and the pop at line 69 then raises IndexError and ends the thread. `Commands.CallQueue.Valid` and the queue clause of `Acquisition.Good` hold only under this assumption.
- Concurrency of zeroing: `set_zero` and `no_zero` assign the four offsets one by one (lines 156-159 and 162-165), and the loop can compute one frame's four fields (lines 89-96) in between, giving a frame with mixed old and new offsets. The model applies each zeroing call as one step between ticks.
- The queue is module-global and shared across engine instances, and each recorded call carries its instance as its first positional argument. The model has one engine: `Create` receives the pending queue, and recorded calls omit the instance.
- pySerial: the timing of `in_waiting` (a line that arrives after the last check at line 77 is read in the next tick, as part of its `arrived`), `readline` (including partial lines on timeout), `write` encoding, `list_ports` and the diagnostic printing in `connect`. Incoming data is an abstract sequence of already-read lines per tick. A line whose read or UTF-8 decode raises is `Garbled` and dropped.
- Exceptions raised by `open()` at lines 75 and 137 and by `write` are not modelled. Every port the model attaches is already open, and those calls are taken to succeed.
- The outcome of opening a port (`Opened`, SerialException, other exception) is an input of the tick. The device and baudrate values matter only through that outcome.
- `float(...)` and the `KalmanFilter` update and constructor are not shown. They are the uninterpreted fields of `Axes.Sensor`, so no filter convergence property is stated.
- Floating point: axis values are `real`, with no rounding.
- `Vector` construction and `set_length` are not part of this model. `ForceVector.Build` gives the summed direction and the requested length, not the rescaled vector. A `set_length` failure, for example on a summed vector of zero with non-zero load, would discard the line in the code; the model assumes it never fails.
- `ForceGraph` is an append-only log of pushed entries. Failures inside `add_to_buffer` are not modelled.
- Commands.Bind: every binding error is the same TypeError outcome; the model does not distinguish which kind of error Python reports.
- Acquisition.ProcessLines: states what reading lines preserves, not the exact history it produces. The per-line effect is stated by `Acquisition.ProcessLine`.
- `Moving_systems/Data_base.py` is not part of this model. It only constructs marker and object constants and has no logic.

=== FILE: acquisition.dfy ===
/** The polling engine: one tick is one pass of the loop body (after its
    sleep). It runs at most one deferred call, then, with a port attached,
    reads every pending line through the parser, the filters, the force-vector
    builder and the history buffer. Zero calibration and reading the latest
    entry are called directly by other threads. */
module Acquisition {
  import opened Wrappers
  import opened Text
  import opened Axes
  import opened Calibration
  import opened FrameParser
  import opened ForceVector
  import opened History
  import opened Commands

  /** One line as the loop gets it: decoded text, or a line whose read or UTF-8
      decode raised (caught and dropped). */
  datatype RawLine = Line(text: string) | Garbled

  /** The serial attachment: none, or a port with its open flag and the lines
      it has received that the loop has not read yet. */
  datatype Conn = NoPort | Port(device: Value, baudrate: Value, isOpen: bool, inbox: seq<RawLine>)

  /** What opening a port did: connect catches a SerialException, any other
      exception escapes. */
  datatype OpenOutcome = Opened | SerialFailure | OtherFailure

  /** One history entry: the force vector and the frame it was built from. */
  datatype Entry = Entry(force: Force, frame: Frame)

  /** What the outside world does during one tick: the lines that arrive while
      the loop sleeps (and before the queued call runs), the lines that arrive
      after the call and before the read loop finds the port drained, and how
      an attempt to open a port would end. */
  datatype TickInput = TickInput(arrived: seq<RawLine>, late: seq<RawLine>, open: OpenOutcome)

  /** The engine state. `graph` is the optional visualisation sink's log of
      pushed entries; `written` is every line sent to the port; `alive` turns
      false when an exception escapes the loop body and ends the thread. */
  datatype Engine = Engine(
    conn: Conn,
    filters: Quad<FilterState>,
    offsets: Quad<real>,
    buffer: seq<Entry>,
    capacity: int,
    graph: Option<seq<Entry>>,
    queue: CallQueue,
    written: seq<string>,
    alive: bool)

  const DEFAULT_CAPACITY: int := 5

  /** The invariant every reachable state keeps: parallel queue lists of equal
      length, an attached port is open, and the history within capacity (an
      empty history when the capacity is 0 or less). */
  predicate Good(e: Engine) {
    && e.queue.Valid()
    && (e.conn.Port? ==> e.conn.isOpen)
    && |e.buffer| <= (if e.capacity < 0 then 0 else e.capacity)
  }

  /** The constructor. The queue is whatever calls are already pending, since
      it is shared, not created here. Opening the initial port may raise, and
      then there is no engine. The `data_buffer` keyword is read by truthiness,
      so 0 keeps the default capacity. */
  function Create(s: Sensor, queue: CallQueue, port: Option<Value>, baudrate: Option<Value>,
                  dataBuffer: Option<int>, graph: bool, open: OpenOutcome): (r: Option<Engine>)
    requires queue.Valid()
    ensures r.None? <==> port.Some? && baudrate.Some? && open != Opened
    ensures r.Some? ==> Good(r.value) && r.value.alive && r.value.queue == queue
    ensures r.Some? ==> r.value.buffer == [] && r.value.offsets == Cleared && r.value.written == []
    ensures r.Some? ==> forall k :: 0 <= k < 4 ==>
      r.value.filters.At(k) == s.make(PROCESS_VARIANCE, MEASUREMENT_VARIANCE)
    ensures r.Some? ==> (r.value.conn.Port? <==> port.Some? && baudrate.Some?)
    ensures r.Some? ==> (r.value.capacity == DEFAULT_CAPACITY <==> dataBuffer.None? || dataBuffer.value in {0, 5})
    ensures r.Some? && dataBuffer.Some? && dataBuffer.value != 0 ==> r.value.capacity == dataBuffer.value
    ensures r.Some? && port.Some? && baudrate.Some? ==> r.value.conn == Port(port.value, baudrate.value, true, [])
    ensures r.Some? ==> (r.value.graph == Some([]) <==> graph) && (r.value.graph == None <==> !graph)
  {
    var f := s.make(PROCESS_VARIANCE, MEASUREMENT_VARIANCE);
    var capacity := if dataBuffer.Some? && dataBuffer.value != 0 then dataBuffer.value else DEFAULT_CAPACITY;
    var e := Engine(NoPort, Quad(f, f, f, f), Cleared, [], capacity, if graph then Some([]) else None,
                    queue, [], true);
    if port.Some? && baudrate.Some? then
      if open == Opened then Some(e.(conn := Port(port.value, baudrate.value, true, []))) else None
    else Some(e)
  }

  /** A call to a decorated method (connect, disconnect, send_to_serial) from any
      thread: the call is recorded at the tail of the queue and nothing else
      happens. */
  function Request(e: Engine, c: Call): (r: Engine)
    requires e.queue.Valid()
    ensures r.queue.Valid() && r.queue.Calls() == e.queue.Calls() + [c]
    ensures r.(queue := e.queue) == e
    ensures Good(e) ==> Good(r)
  {
    e.(queue := Enqueue(e.queue, c))
  }

  /** The frame a line yields, if it is accepted. */
  function Accepted(s: Sensor, e: Engine, line: RawLine): Option<Frame> {
    match line
    case Garbled => None
    case Line(t) => ParseLine(s, e.filters, e.offsets, t).frame
  }

  /** One line of the I/O phase: the filters move as parsing got, and an accepted
      frame becomes an entry pushed to the history and to the graph sink. A
      rejected line leaves history and sink alone; nothing but filters, history
      and sink ever changes, the offsets in particular. */
  function ProcessLine(s: Sensor, e: Engine, line: RawLine): (r: Engine)
    ensures r.(filters := e.filters, buffer := e.buffer, graph := e.graph) == e
    ensures line.Garbled? ==> r == e
    ensures line.Line? ==> r.filters == ParseLine(s, e.filters, e.offsets, line.text).filters
    ensures Accepted(s, e, line).None? ==> r.buffer == e.buffer && r.graph == e.graph
    ensures Accepted(s, e, line).Some? ==>
      var f := Accepted(s, e, line).value;
      r.buffer == Push(e.buffer, e.capacity, Entry(Build(f), f))
    ensures Accepted(s, e, line).Some? && 1 <= e.capacity && |e.buffer| <= e.capacity ==>
      var f := Accepted(s, e, line).value;
      Latest(r.buffer) == Success(Entry(Build(f), f))
    ensures e.graph.None? ==> r.graph.None?
    ensures Accepted(s, e, line).Some? && e.graph.Some? ==>
      var f := Accepted(s, e, line).value;
      r.graph == Some(e.graph.value + [Entry(Build(f), f)])
    ensures Good(e) ==> Good(r)
  {
    match line
    case Garbled => e
    case Line(t) =>
      var fed := ParseLine(s, e.filters, e.offsets, t);
      assert Accepted(s, e, line) == fed.frame;
      Absorb(e, fed)
  }

  /** What one parsed line does to the engine: the filters become the parse's,
      and a frame becomes an entry pushed to the history and to the sink. */
  function Absorb(e: Engine, fed: Fed): (r: Engine)
    ensures r.(filters := e.filters, buffer := e.buffer, graph := e.graph) == e
    ensures r.filters == fed.filters
    ensures fed.frame.None? ==> r.buffer == e.buffer && r.graph == e.graph
    ensures fed.frame.Some? ==>
      r.buffer == Push(e.buffer, e.capacity, Entry(Build(fed.frame.value), fed.frame.value))
    ensures fed.frame.Some? && 1 <= e.capacity && |e.buffer| <= e.capacity ==>
      Latest(r.buffer) == Success(Entry(Build(fed.frame.value), fed.frame.value))
    ensures e.graph.None? ==> r.graph.None?
    ensures fed.frame.Some? && e.graph.Some? ==>
      r.graph == Some(e.graph.value + [Entry(Build(fed.frame.value), fed.frame.value)])
    ensures Good(e) ==> Good(r)
  {
    match fed.frame
    case None => e.(filters := fed.filters)
    case Some(f) =>
      var entry := Entry(Build(f), f);
      LatestAfterPush(e.buffer, e.capacity, entry);
      e.(filters := fed.filters,
         buffer := Push(e.buffer, e.capacity, entry),
         graph := if e.graph.Some? then Some(e.graph.value + [entry]) else None)
  }

  /** The lines read in one I/O phase, in arrival order. */
  function ProcessLines(s: Sensor, e: Engine, lines: seq<RawLine>): (r: Engine)
    ensures r.(filters := e.filters, buffer := e.buffer, graph := e.graph) == e
    ensures Good(e) ==> Good(r)
    decreases |lines|
  {
    if lines == [] then e else ProcessLines(s, ProcessLine(s, e, lines[0]), lines[1..])
  }

  /** The I/O phase: with a port attached, open it if closed, then read and
      process every line waiting on it, and every line that arrives while the
      read loop still finds data waiting (`late`), in arrival order; without a
      port nothing happens and late lines have nowhere to land. */
  function IoPhase(s: Sensor, e: Engine, late: seq<RawLine>): (r: Engine)
    ensures e.conn.NoPort? ==> r == e
    ensures e.conn.Port? ==> r.conn == e.conn.(isOpen := true, inbox := [])
    ensures e.conn.Port? ==>
      r == ProcessLines(s, e.(conn := e.conn.(isOpen := true, inbox := [])), e.conn.inbox + late)
    ensures r.(conn := e.conn, filters := e.filters, buffer := e.buffer, graph := e.graph) == e
    ensures Good(e) ==> Good(r)
  {
    match e.conn
    case NoPort => e
    case Port(_, _, _, inbox) => ProcessLines(s, e.(conn := e.conn.(isOpen := true, inbox := [])), inbox + late)
  }

  /** connect: a new open port replaces the current one (the old one is not
      closed); a SerialException leaves the current connection, whatever it is,
      in place; any other exception ends the loop. */
  function ConnectTo(e: Engine, device: Value, baudrate: Value, open: OpenOutcome): (r: Engine)
    ensures open == Opened ==> r.conn == Port(device, baudrate, true, []) && r.alive == e.alive
    ensures open != Opened ==> r.conn == e.conn
    ensures open == SerialFailure ==> r == e
    ensures open == OtherFailure ==> !r.alive
    ensures r.(conn := e.conn, alive := e.alive) == e
    ensures Good(e) ==> Good(r)
  {
    match open
    case Opened => e.(conn := Port(device, baudrate, true, []))
    case SerialFailure => e
    case OtherFailure => e.(alive := false)
  }

  /** disconnect: close and drop the port; with no port it does nothing. */
  function DisconnectPort(e: Engine): (r: Engine)
    ensures r.conn == NoPort
    ensures r.(conn := e.conn) == e
    ensures e.conn.NoPort? ==> r == e
  {
    if e.conn.Port? then e.(conn := NoPort) else e
  }

  /** send_to_serial: with no port, nothing changes (the error is built and never
      raised). With a port, it is opened if closed, the text goes out with a
      newline, and every line received but not yet read is discarded. Text that
      is not a string makes the concatenation raise, ending the loop. */
  function SendTo(e: Engine, info: Value): (r: Engine)
    ensures e.conn.NoPort? ==> r == e
    ensures e.conn.Port? ==> r.conn.Port? && r.conn.isOpen
    ensures e.conn.Port? && info.Str? ==>
      r.written == e.written + [info.s + "\n"] && r.conn.inbox == [] && r.alive == e.alive
    ensures e.conn.Port? && info.Int? ==> r.written == e.written && !r.alive
    ensures e.conn.Port? && info.Str? ==> r.conn == e.conn.(isOpen := true, inbox := [])
    ensures e.conn.Port? && info.Int? ==> r.conn == e.conn.(isOpen := true)
    ensures r.(conn := e.conn, written := e.written, alive := e.alive) == e
    ensures Good(e) ==> Good(r)
  {
    match e.conn
    case NoPort => e
    case Port(_, _, _, _) =>
      var reopened := e.conn.(isOpen := true);
      match info
      case Str(t) => e.(conn := reopened.(inbox := []), written := e.written + [t + "\n"])
      case Int(_) => e.(conn := reopened, alive := false)
  }

  /** Running one popped call: its arguments are bound as Python binds them,
      and a binding failure is a TypeError that ends the loop. A call never
      touches the filters, offsets, history, sink or queue. */
  function RunCall(e: Engine, c: Call, open: OpenOutcome): (r: Engine)
    ensures Bind(Params(c.op), c.args, c.kwargs).None? ==> r == e.(alive := false)
    ensures c.op == Connect && Bind(Params(Connect), c.args, c.kwargs).Some? ==>
      var vs := Bind(Params(Connect), c.args, c.kwargs).value;
      |vs| == 2 && r == ConnectTo(e, vs[0], vs[1], open)
    ensures c.op == Disconnect && Bind(Params(Disconnect), c.args, c.kwargs).Some? ==> r == DisconnectPort(e)
    ensures c.op == SendToSerial && Bind(Params(SendToSerial), c.args, c.kwargs).Some? ==>
      var vs := Bind(Params(SendToSerial), c.args, c.kwargs).value;
      |vs| == 1 && r == SendTo(e, vs[0])
    ensures r.(conn := e.conn, written := e.written, alive := e.alive) == e
    ensures Good(e) ==> Good(r)
  {
    match Bind(Params(c.op), c.args, c.kwargs)
    case None => e.(alive := false)
    case Some(vs) =>
      match c.op
      case Connect => ConnectTo(e, vs[0], vs[1], open)
      case Disconnect => DisconnectPort(e)
      case SendToSerial => SendTo(e, vs[0])
  }

  /** The command phase: pop the oldest pending call, if any, and run it. */
  function RunNext(e: Engine, open: OpenOutcome): (r: Engine)
    requires e.queue.Valid()
    ensures r.queue.Valid()
    ensures e.queue.Calls() == [] ==> r == e
    ensures e.queue.Calls() != [] ==>
      r.queue.Calls() == e.queue.Calls()[1..]
      && r.(queue := e.queue) == RunCall(e, e.queue.Calls()[0], open)
    ensures r.(conn := e.conn, written := e.written, alive := e.alive, queue := e.queue) == e
    ensures Good(e) ==> Good(r)
  {
    match Dequeue(e.queue)
    case None => e
    case Some((c, rest)) => RunCall(e.(queue := rest), c, open)
  }

  /** Lines arriving during the sleep wait on an open port; with no open port
      they are lost. */
  function Deliver(e: Engine, arrived: seq<RawLine>): (r: Engine)
    ensures e.conn.Port? && e.conn.isOpen ==> r.conn == e.conn.(inbox := e.conn.inbox + arrived)
    ensures !(e.conn.Port? && e.conn.isOpen) ==> r == e
    ensures r.(conn := e.conn) == e
    ensures Good(e) ==> Good(r)
  {
    if e.conn.Port? && e.conn.isOpen then e.(conn := e.conn.(inbox := e.conn.inbox + arrived)) else e
  }

  /** One tick: lines arrive during the sleep, then at most one call runs (the
      oldest), and only then, if the loop is still alive, the port is read,
      together with the lines that arrive while it is read. A
      stopped loop does nothing. The offsets and capacity never change here. */
  function Tick(s: Sensor, e: Engine, input: TickInput): (r: Engine)
    requires e.queue.Valid()
    ensures r.queue.Valid()
    ensures !e.alive ==> r == e
    ensures e.alive ==> r.queue.Calls() == if e.queue.Calls() == [] then [] else e.queue.Calls()[1..]
    ensures r.offsets == e.offsets && r.capacity == e.capacity
    ensures r.alive ==> e.alive
    ensures Good(e) && r.alive ==> r.conn.Port? ==> r.conn.inbox == []
    ensures Good(e) ==> Good(r)
  {
    if !e.alive then e
    else
      var e1 := Deliver(e, input.arrived);
      var e2 := RunNext(e1, input.open);
      if e2.alive then IoPhase(s, e2, input.late) else e2
  }

  /** Consecutive ticks, as the loop runs them. Calls run one per tick,
      oldest first: the queue loses a prefix of its calls, no longer than the
      number of ticks, and exactly that many (or all of them) when the loop is
      still alive at the end. A stopped loop stays stopped and changes
      nothing, and every tick keeps the invariant. */
  method Run(s: Sensor, e: Engine, inputs: seq<TickInput>) returns (r: Engine)
    requires e.queue.Valid()
    ensures r.queue.Valid()
    ensures Good(e) ==> Good(r)
    ensures r.alive ==> e.alive
    ensures !e.alive ==> r == e
    ensures Popped(e.queue.Calls(), r.queue.Calls(), |inputs|, r.alive)
  {
    r := e;
    var i := 0;
    while i < |inputs|
      invariant i <= |inputs|
      invariant r.queue.Valid()
      invariant Good(e) ==> Good(r)
      invariant r.alive ==> e.alive
      invariant !e.alive ==> r == e
      invariant Popped(e.queue.Calls(), r.queue.Calls(), i, r.alive)
    {
      var next := Tick(s, r, inputs[i]);
      PoppedStep(e.queue.Calls(), r.queue.Calls(), next.queue.Calls(), i, r.alive, next.alive);
      r := next;
      i := i + 1;
    }
  }

  /** `after` is `before` with its first `n` calls gone, where `n` is at most
      `ticks`, and exactly `ticks` (or everything) when `exact` holds. */
  predicate Popped(before: seq<Call>, after: seq<Call>, ticks: nat, exact: bool) {
    var n := |before| - |after|;
    && 0 <= n <= ticks
    && after == before[n..]
    && (exact ==> n == if ticks < |before| then ticks else |before|)
  }

  /** One more tick: a live loop pops the head call, if any; a stopped loop
      pops nothing and stays stopped. */
  lemma PoppedStep(c0: seq<Call>, c1: seq<Call>, c2: seq<Call>, ticks: nat, alive1: bool, alive2: bool)
    requires Popped(c0, c1, ticks, alive1)
    requires alive1 ==> c2 == if c1 == [] then [] else c1[1..]
    requires !alive1 ==> c2 == c1 && !alive2
    ensures Popped(c0, c2, ticks + 1, alive2)
  {
    if alive1 && c1 != [] {
      var n := |c0| - |c1|;
      assert c2 == c0[n + 1..];
    }
  }

  /** `latest_val`: the newest history entry; IndexError on an empty history. */
  function LatestVal(e: Engine): (r: Result<Entry, HistoryError>)
    ensures r.Failure? <==> e.buffer == []
    ensures r.Success? ==> r.value == e.buffer[|e.buffer| - 1]
  {
    Latest(e.buffer)
  }

  /** `set_zero`: each offset becomes the negation of the latest frame's field;
      on an empty history the IndexError reaches the caller. Nothing but the
      offsets changes. */
  function SetZero(e: Engine): (r: Result<Engine, HistoryError>)
    ensures r.Failure? <==> e.buffer == []
    ensures r.Success? ==> r.value.(offsets := e.offsets) == e
    ensures r.Success? ==> forall k :: 0 <= k < 4 ==>
      r.value.offsets.At(k) == -e.buffer[|e.buffer| - 1].frame.At(k)
  {
    match LatestVal(e)
    case Failure(err) => Failure(err)
    case Success(entry) => Success(e.(offsets := ZeroFrom(entry.frame)))
  }

  /** Zeroing as evidently intended: each offset becomes the filtered value
      behind the latest frame (its field plus the offset it was taken under). */
  function SetZeroCorrected(e: Engine): (r: Result<Engine, HistoryError>)
    ensures r.Failure? <==> e.buffer == []
    ensures r.Success? ==> r.value.(offsets := e.offsets) == e
    ensures r.Success? ==> forall k :: 0 <= k < 4 ==>
      r.value.offsets.At(k) == e.buffer[|e.buffer| - 1].frame.At(k) + e.offsets.At(k)
  {
    match LatestVal(e)
    case Failure(err) => Failure(err)
    case Success(entry) => Success(e.(offsets := ZeroCorrected(e.offsets, entry.frame)))
  }

  /** `no_zero`: all four offsets back to 0, nothing else changes. */
  function NoZero(e: Engine): (r: Engine)
    ensures r.offsets == Cleared
    ensures r.(offsets := e.offsets) == e
  {
    e.(offsets := Cleared)
  }

  /** The pending call runs before the port is read: a queued disconnect means
      nothing that arrived, before or after the call, is read in that tick. */
  lemma DisconnectBeforeRead(s: Sensor, e: Engine, input: TickInput)
    requires Good(e) && e.alive
    requires e.queue.Calls() != [] && e.queue.Calls()[0] == Call(Disconnect, [], map[])
    ensures var r := Tick(s, e, input);
      r.conn == NoPort && r.buffer == e.buffer && r.filters == e.filters && r.alive
  {
    assert Bind(Params(Disconnect), [], map[]) == Some([]);
  }

  /** A queued send runs before the read and resets the input side: the lines
      that were waiting or arrived during the sleep are dropped unread, the text
      goes out with a newline, and only the lines arriving after the send (a
      reply, say) are read. */
  lemma SendDiscardsPendingInput(s: Sensor, e: Engine, input: TickInput, text: string)
    requires Good(e) && e.alive && e.conn.Port?
    requires e.queue.Calls() != [] && e.queue.Calls()[0] == Call(SendToSerial, [Str(text)], map[])
    ensures var r := Tick(s, e, input);
      && r.written == e.written + [text + "\n"]
      && r.conn == e.conn.(inbox := [])
    ensures Tick(s, e, input) == ProcessLines(s, e.(conn := e.conn.(inbox := []), written := e.written + [text + "\n"],
                                                   queue := Dequeue(e.queue).value.1), input.late)
    ensures input.late == [] ==> Tick(s, e, input).buffer == e.buffer && Tick(s, e, input).filters == e.filters
  {
    BindPositional(Params(SendToSerial), [Str(text)]);
    assert [] + input.late == input.late;
  }

  /** With nothing queued and a port attached, a tick reads every line that was
      waiting and every line that arrived, in order, and leaves none behind. */
  lemma IdleTickReadsEverything(s: Sensor, e: Engine, input: TickInput)
    requires Good(e) && e.alive && e.conn.Port? && e.queue.Calls() == []
    ensures Tick(s, e, input) ==
      ProcessLines(s, e.(conn := e.conn.(inbox := [])), e.conn.inbox + input.arrived + input.late)
  {
  }

  /** A call whose arguments do not bind raises out of the loop body: the call
      is consumed, the loop stops, and nothing is read. */
  lemma UnboundCallStopsLoop(s: Sensor, e: Engine, input: TickInput)
    requires Good(e) && e.alive && e.queue.Calls() != []
    requires var c := e.queue.Calls()[0]; Bind(Params(c.op), c.args, c.kwargs).None?
    ensures var r := Tick(s, e, input);
      !r.alive && r.buffer == e.buffer && r.filters == e.filters && r.queue.Calls() == e.queue.Calls()[1..]
  {
  }

  /** A connect that fails with a SerialException keeps whatever connection was
      there, and the tick then reads it as before: with a port, every line that
      was waiting or arrived is read, in order; with none, only the call is
      consumed. */
  lemma FailedConnectKeepsPort(s: Sensor, e: Engine, input: TickInput, device: Value, baudrate: Value)
    requires Good(e) && e.alive && input.open == SerialFailure
    requires e.queue.Calls() != [] && e.queue.Calls()[0] == Call(Connect, [device, baudrate], map[])
    ensures var r := Tick(s, e, input);
      r.alive && (r.conn.NoPort? <==> e.conn.NoPort?)
      && (e.conn.Port? ==> r.conn.device == e.conn.device && r.conn.baudrate == e.conn.baudrate)
    ensures var rest := Dequeue(e.queue).value.1;
      e.conn.Port? ==>
        Tick(s, e, input) ==
          ProcessLines(s, e.(conn := e.conn.(inbox := []), queue := rest), e.conn.inbox + input.arrived + input.late)
    ensures e.conn.NoPort? ==> Tick(s, e, input) == e.(queue := Dequeue(e.queue).value.1)
  {
    BindPositional(Params(Connect), [device, baudrate]);
  }

  /** A connect that opens its port replaces the connection before the read:
      the lines that were waiting on the old port, or arrived on it during the
      sleep, are never read; only lines arriving on the new port after it opens
      are, and when there are none, nothing else but the queue changes. */
  lemma ConnectTickAttaches(s: Sensor, e: Engine, input: TickInput, device: Value, baudrate: Value)
    requires Good(e) && e.alive && input.open == Opened
    requires e.queue.Calls() != [] && e.queue.Calls()[0] == Call(Connect, [device, baudrate], map[])
    ensures Tick(s, e, input) ==
      ProcessLines(s, e.(conn := Port(device, baudrate, true, []), queue := Dequeue(e.queue).value.1), input.late)
    ensures input.late == [] ==>
      Tick(s, e, input) == e.(conn := Port(device, baudrate, true, []), queue := Dequeue(e.queue).value.1)
  {
    BindPositional(Params(Connect), [device, baudrate]);
    assert [] + input.late == input.late;
  }

  /** After `no_zero`, an accepted line's frame is exactly its four filtered
      values, whatever offsets were set before. */
  lemma NoZeroThenLine(s: Sensor, e: Engine, text: string)
    requires Accepted(s, NoZero(e), Line(text)).Some?
    ensures Accepted(s, NoZero(e), Line(text)).value == FilteredAll(s, e.filters, Tokens(text))
  {
    AcceptedFrameIsApplied(s, e.filters, Cleared, text);
    ApplyCleared(FilteredAll(s, e.filters, Tokens(text)));
  }

  /** Zeroing twice with no new frame in between gives the same offsets. */
  lemma SetZeroTwice(e: Engine)
    requires e.buffer != []
    ensures SetZero(SetZero(e).value) == SetZero(e)
  {
  }

  /** As written, zeroing adds the latest frame back in: after `set_zero`, the
      next accepted line's field on each axis is its filtered value plus the
      field the latest frame had, rather than the filtered value less the
      value zeroed on. */
  lemma SetZeroThenLine(s: Sensor, e: Engine, text: string)
    requires e.buffer != []
    requires Accepted(s, SetZero(e).value, Line(text)).Some?
    ensures var latest := e.buffer[|e.buffer| - 1].frame;
      var f := Accepted(s, SetZero(e).value, Line(text)).value;
      forall k :: 0 <= k < 4 ==>
        f.At(k) == Filtered(s, e.filters.At(k), Tokens(text), k) + latest.At(k)
  {
  }

  /** With the corrected zeroing, a line whose filtered values are the ones
      behind the latest frame (its fields plus the current offsets) reads 0 on
      every axis. */
  lemma SetZeroCorrectedThenSteadyLine(s: Sensor, e: Engine, text: string)
    requires e.buffer != []
    requires Accepted(s, SetZeroCorrected(e).value, Line(text)).Some?
    requires forall k :: 0 <= k < 4 ==>
      Filtered(s, e.filters.At(k), Tokens(text), k) == e.buffer[|e.buffer| - 1].frame.At(k) + e.offsets.At(k)
    ensures var f := Accepted(s, SetZeroCorrected(e).value, Line(text)).value;
      forall k :: 0 <= k < 4 ==> f.At(k) == 0.0
  {
  }
}

=== FILE: axes.dfy ===
/** The four sensing axes and what each of them carries: a per-axis value
    container, the recursive filter's state, and the sensor's numeric
    behaviour that the model takes as given. */
module Axes {
  import opened Wrappers

  /** One value per axis, in the sensor line's token order:
      0 = +x, 1 = -x, 2 = +y, 3 = -y. */
  datatype Quad<T> = Quad(plusX: T, minusX: T, plusY: T, minusY: T) {

    function At(k: nat): T
      requires k < 4
    {
      if k == 0 then plusX else if k == 1 then minusX else if k == 2 then plusY else minusY
    }

    /** The same four values with axis `k` replaced by `v`. */
    function With(k: nat, v: T): (q: Quad<T>)
      requires k < 4
      ensures q.At(k) == v
      ensures forall j :: 0 <= j < 4 && j != k ==> q.At(j) == At(j)
    {
      if k == 0 then this.(plusX := v)
      else if k == 1 then this.(minusX := v)
      else if k == 2 then this.(plusY := v)
      else this.(minusY := v)
    }
  }

  /** Two quads are equal when they agree on every axis. */
  lemma QuadExt<T>(p: Quad<T>, q: Quad<T>)
    requires forall k :: 0 <= k < 4 ==> p.At(k) == q.At(k)
    ensures p == q
  {
    assert p.At(0) == q.At(0) && p.At(1) == q.At(1) && p.At(2) == q.At(2) && p.At(3) == q.At(3);
  }

  /** One frame: the filtered, calibration-corrected reading of each axis. */
  type Frame = Quad<real>

  /** All four values 0: no offset on any axis (after construction and after
      `no_zero`), or a frame with no load on any axis. */
  const Cleared: Quad<real> := Quad(0.0, 0.0, 0.0, 0.0)

  /** The state of one axis's recursive estimator. */
  datatype FilterState = FilterState(
    estimate: real,
    covariance: real,
    processVariance: real,
    measurementVariance: real)

  /** What the model takes as given about the sensor's numbers:
      - `parseNum` is Python's `float(...)` on a token suffix (None when it raises);
      - `step` is one filter update on a measurement, giving the new state and
        the filtered value it returns;
      - `make` builds a filter from its process and measurement variances. */
  datatype Sensor = Sensor(
    parseNum: string -> Option<real>,
    step: (FilterState, real) -> (FilterState, real),
    make: (real, real) -> FilterState)

  /** The variances every axis filter is built with: 1e-2 and 0.05 squared. */
  const PROCESS_VARIANCE: real := 0.01
  const MEASUREMENT_VARIANCE: real := 0.0025
}

=== FILE: calibration.dfy ===
/** Zero calibration: four offsets, one per axis, subtracted from each filtered
    value to give a frame field. */
module Calibration {
  import opened Axes

  /** A frame field: the axis's filtered value less that axis's offset. */
  function Corrected(filtered: real, offset: real): real {
    filtered - offset
  }

  /** All four fields from four filtered values under the given offsets. */
  function Apply(filtered: Quad<real>, offsets: Quad<real>): (f: Frame)
    ensures forall k :: 0 <= k < 4 ==> f.At(k) == Corrected(filtered.At(k), offsets.At(k))
  {
    Quad(filtered.plusX - offsets.plusX, filtered.minusX - offsets.minusX,
         filtered.plusY - offsets.plusY, filtered.minusY - offsets.minusY)
  }

  /** Cleared offsets leave every filtered value as it is. */
  lemma ApplyCleared(filtered: Quad<real>)
    ensures Apply(filtered, Cleared) == filtered
  {
  }

  /** The offsets `set_zero` stores: each is the negation of that axis's field in
      the latest frame, a field that already has the previous offsets removed. */
  function ZeroFrom(latest: Frame): (offsets: Quad<real>)
    ensures forall k :: 0 <= k < 4 ==> offsets.At(k) + latest.At(k) == 0.0
  {
    Quad(-latest.plusX, -latest.minusX, -latest.plusY, -latest.minusY)
  }

  /** As written, zeroing does not zero: under a steady load, the same filtered
      reading that produced the latest frame reads afterwards as twice itself
      less the old offset. */
  lemma ZeroFromDoublesSteadyReading(filtered: Quad<real>, prior: Quad<real>)
    ensures forall k :: 0 <= k < 4 ==>
      Apply(filtered, ZeroFrom(Apply(filtered, prior))).At(k) == 2.0 * filtered.At(k) - prior.At(k)
  {
  }

  /** The smallest instance: no previous offsets and a steady reading of 1.0 on
      +x; after zeroing, +x reads 2.0 where 0.0 was meant. */
  lemma ZeroFromCounterexample()
    ensures Apply(Quad(1.0, 0.0, 0.0, 0.0), ZeroFrom(Apply(Quad(1.0, 0.0, 0.0, 0.0), Cleared))).plusX == 2.0
  {
  }

  /** The offsets zeroing evidently means: the raw filtered value behind the
      latest frame, that is its field plus the offset it was taken under. */
  function ZeroCorrected(offsets: Quad<real>, latest: Frame): (r: Quad<real>)
    ensures forall k :: 0 <= k < 4 ==> Corrected(r.At(k), offsets.At(k)) == latest.At(k)
  {
    Quad(latest.plusX + offsets.plusX, latest.minusX + offsets.minusX,
         latest.plusY + offsets.plusY, latest.minusY + offsets.minusY)
  }

  /** With the corrected offsets, the reading that was current when zeroing
      happened reads 0 on every axis afterwards. */
  lemma ZeroCorrectedCancelsSteadyReading(filtered: Quad<real>, prior: Quad<real>)
    ensures Apply(filtered, ZeroCorrected(prior, Apply(filtered, prior))) == Cleared
  {
  }
}

=== FILE: commands.dfy ===
/** The deferred-call queue: calling a decorated method only records the call
    as three parallel entries (function, positional arguments, keyword
    arguments); the polling loop later pops and runs the oldest. */
module Commands {
  import opened Wrappers

  /** An argument value as a caller passes it. */
  datatype Value = Str(s: string) | Int(n: int)

  /** The three decorated methods. */
  datatype Op = Connect | Disconnect | SendToSerial

  /** Each method's parameters after `self`, in declaration order. */
  function Params(op: Op): seq<string> {
    match op
    case Connect => ["port", "baudrate"]
    case Disconnect => []
    case SendToSerial => ["information"]
  }

  /** One recorded call. The engine itself, passed first in the recorded
      positional arguments, is left implicit: the model has one engine. */
  datatype Call = Call(op: Op, args: seq<Value>, kwargs: map<string, Value>)

  /** The queue as the three parallel lists it is stored in. */
  datatype CallQueue = CallQueue(funcs: seq<Op>, args: seq<seq<Value>>, kwargs: seq<map<string, Value>>) {

    /** The three lists have equal length. */
    predicate Valid() {
      |funcs| == |args| == |kwargs|
    }

    /** The pending calls, oldest first, read across the three lists. */
    function Calls(): (cs: seq<Call>)
      requires Valid()
      ensures |cs| == |funcs|
      ensures forall i :: 0 <= i < |cs| ==> cs[i] == Call(funcs[i], args[i], kwargs[i])
    {
      seq(|funcs|, i requires 0 <= i < |funcs| => Call(funcs[i], args[i], kwargs[i]))
    }
  }

  const Empty: CallQueue := CallQueue([], [], [])

  /** The decorator's wrapper: append the call to the tail of each list; nothing
      runs and nothing already queued moves. */
  function Enqueue(q: CallQueue, c: Call): (r: CallQueue)
    ensures q.Valid() ==> r.Valid() && r.Calls() == q.Calls() + [c]
    ensures |r.funcs| == |q.funcs| + 1
  {
    CallQueue(q.funcs + [c.op], q.args + [c.args], q.kwargs + [c.kwargs])
  }

  /** Pop the head of each list, when there is a pending call: the oldest call
      and the queue of the ones after it. */
  function Dequeue(q: CallQueue): (r: Option<(Call, CallQueue)>)
    requires q.Valid()
    ensures r.None? <==> q.Calls() == []
    ensures r.Some? ==> r.value.0 == q.Calls()[0] && r.value.1.Valid()
                        && r.value.1.Calls() == q.Calls()[1..]
  {
    if |q.funcs| > 0 then
      Some((Call(q.funcs[0], q.args[0], q.kwargs[0]), CallQueue(q.funcs[1..], q.args[1..], q.kwargs[1..])))
    else None
  }

  /** Calls recorded one after another. */
  function EnqueueAll(q: CallQueue, cs: seq<Call>): (r: CallQueue)
    ensures q.Valid() ==> r.Valid() && r.Calls() == q.Calls() + cs
    decreases |cs|
  {
    if cs == [] then q else EnqueueAll(Enqueue(q, cs[0]), cs[1..])
  }

  /** Everything popping would run, in the order it would run it. */
  function Drain(q: CallQueue): seq<Call>
    requires q.Valid()
    decreases |q.funcs|
  {
    match Dequeue(q)
    case None => []
    case Some((c, rest)) => [c] + Drain(rest)
  }

  lemma {:induction false} DrainCalls(q: CallQueue)
    requires q.Valid()
    ensures Drain(q) == q.Calls()
    decreases |q.funcs|
  {
    if q.Calls() != [] {
      var rest := Dequeue(q).value.1;
      DrainCalls(rest);
      assert Drain(q) == [q.Calls()[0]] + Drain(rest);
      assert q.Calls() == [q.Calls()[0]] + q.Calls()[1..];
    }
  }

  /** First in, first out: calls recorded on top of an already queued backlog
      run after it, in the order they were recorded. */
  lemma FifoOrder(q: CallQueue, cs: seq<Call>)
    requires q.Valid()
    ensures Drain(EnqueueAll(q, cs)) == Drain(q) + cs
  {
    DrainCalls(EnqueueAll(q, cs));
    DrainCalls(q);
  }

  /** Python's binding of a call's positional and keyword arguments to a
      parameter list; None is the TypeError Python raises (too many positional
      arguments, a keyword that names no remaining parameter or one already
      given positionally, or a parameter left without a value). */
  function Bind(params: seq<string>, args: seq<Value>, kwargs: map<string, Value>): (r: Option<seq<Value>>)
    ensures r.Some? <==>
      && |args| <= |params|
      && (forall k :: k in kwargs ==> k in params[|args|..])
      && (forall j :: |args| <= j < |params| ==> params[j] in kwargs)
    ensures r.Some? ==> |r.value| == |params|
    ensures r.Some? ==> forall j :: 0 <= j < |args| ==> r.value[j] == args[j]
    ensures r.Some? ==> forall j :: |args| <= j < |params| ==> r.value[j] == kwargs[params[j]]
  {
    if |args| > |params| then None
    else if exists k :: k in kwargs && k !in params[|args|..] then None
    else Fill(params, args, kwargs, 0)
  }

  /** Values for parameters `j` onward: positional when one was given, from
      the keywords otherwise. */
  function Fill(params: seq<string>, args: seq<Value>, kwargs: map<string, Value>, j: nat): (r: Option<seq<Value>>)
    requires j <= |params|
    ensures r.Some? <==> forall i :: j <= i < |params| && |args| <= i ==> params[i] in kwargs
    ensures r.Some? ==> |r.value| == |params| - j
    ensures r.Some? ==> forall i :: j <= i < |params| ==>
      r.value[i - j] == if i < |args| then args[i] else kwargs[params[i]]
    decreases |params| - j
  {
    if j == |params| then Some([])
    else
      var v := if j < |args| then Some(args[j])
               else if params[j] in kwargs then Some(kwargs[params[j]])
               else None;
      match v
      case None => None
      case Some(x) =>
        match Fill(params, args, kwargs, j + 1)
        case None => None
        case Some(rest) => Some([x] + rest)
  }

  /** A call with exactly one positional argument per parameter and no
      keywords binds them in order. */
  lemma BindPositional(params: seq<string>, args: seq<Value>)
    requires |args| == |params|
    ensures Bind(params, args, map[]) == Some(args)
  {
    var r := Bind(params, args, map[]);
    assert r.Some?;
    assert r.value == args;
  }

  /** A keyword that repeats a parameter already given positionally is refused. */
  lemma BindRefusesDuplicate(params: seq<string>, args: seq<Value>, kwargs: map<string, Value>, j: nat)
    requires j < |args| <= |params| && params[j] in kwargs
    requires forall i, m :: 0 <= i < m < |params| ==> params[i] != params[m]
    ensures Bind(params, args, kwargs).None?
  {
    var k := params[j];
    assert forall m :: |args| <= m < |params| ==> params[m] != k;
    assert k !in params[|args|..];
  }
}

=== FILE: force_vector.dfy ===
/** The force vector built from a frame: four axis arms summed for the
    direction, and the total load requested as its length. */
module ForceVector {
  import opened Axes

  datatype Vec3 = Vec3(x: real, y: real, z: real) {
    function Plus(o: Vec3): Vec3 {
      Vec3(x + o.x, y + o.y, z + o.z)
    }
  }

  /** The arm axis `k` contributes from the origin: its value in-plane, signed
      by the axis direction, and the same value out of plane. */
  function Arm(k: nat, v: real): Vec3
    requires k < 4
  {
    if k == 0 then Vec3(v, 0.0, v)
    else if k == 1 then Vec3(-v, 0.0, v)
    else if k == 2 then Vec3(0.0, v, v)
    else Vec3(0.0, -v, v)
  }

  function Abs(v: real): (r: real)
    ensures r >= 0.0 && (r == v || r == -v)
  {
    if v < 0.0 then -v else v
  }

  /** The summed direction and the length handed to `set_length`; the rescaling
      itself is not modelled. */
  datatype Force = Force(direction: Vec3, length: real)

  /** The triangle inequality for `Abs`, for a sum and a difference. */
  lemma AbsTriangle(a: real, b: real)
    ensures Abs(a + b) <= Abs(a) + Abs(b) && Abs(a - b) <= Abs(a) + Abs(b)
  {
  }

  /** The total absolute load of a frame, |+x| + |-x| + |+y| + |-y|: never
      negative, 0 exactly when the frame is all zeros, and at least the size of
      each summed component. */
  function Load(f: Frame): (l: real)
    ensures l == Abs(f.plusX) + Abs(f.minusX) + Abs(f.plusY) + Abs(f.minusY)
    ensures l >= 0.0
    ensures l == 0.0 <==> f == Cleared
    ensures l >= Abs(f.plusX - f.minusX) && l >= Abs(f.plusY - f.minusY)
    ensures l >= Abs(f.plusX + f.minusX + f.plusY + f.minusY)
  {
    AbsTriangle(f.plusX, f.minusX);
    AbsTriangle(f.plusY, f.minusY);
    AbsTriangle(f.plusX + f.minusX, f.plusY + f.minusY);
    Abs(f.minusX) + Abs(f.plusX) + Abs(f.minusY) + Abs(f.plusY)
  }

  /** The four arms summed (-x, +x, -y, +y, as the vectors are added), with the
      total absolute load as the requested length. The length is never negative,
      is 0 exactly when the frame is all zeros, and is at least the size of
      each component of the summed direction. */
  function Build(f: Frame): (r: Force)
    ensures r.direction == Vec3(f.plusX - f.minusX, f.plusY - f.minusY,
                                f.plusX + f.minusX + f.plusY + f.minusY)
    ensures r.length == Abs(f.plusX) + Abs(f.minusX) + Abs(f.plusY) + Abs(f.minusY)
    ensures r.length >= 0.0
    ensures r.length == 0.0 <==> f == Cleared
    ensures r.length >= Abs(r.direction.x) && r.length >= Abs(r.direction.y)
    ensures r.length >= Abs(r.direction.z)
  {
    var sum := Arm(1, f.minusX).Plus(Arm(0, f.plusX)).Plus(Arm(3, f.minusY)).Plus(Arm(2, f.plusY));
    Force(sum, Load(f))
  }

  function Negate(f: Frame): Frame {
    Quad(-f.plusX, -f.minusX, -f.plusY, -f.minusY)
  }

  /** Flipping every sign flips the direction and keeps the load: the length
      does not depend on the sign combination. */
  lemma BuildNegate(f: Frame)
    ensures Build(Negate(f)).length == Build(f).length
    ensures Build(Negate(f)).direction == Vec3(-Build(f).direction.x, -Build(f).direction.y,
                                               -Build(f).direction.z)
  {
    var n := Negate(f);
    assert Abs(n.plusX) == Abs(f.plusX) && Abs(n.minusX) == Abs(f.minusX);
    assert Abs(n.plusY) == Abs(f.plusY) && Abs(n.minusY) == Abs(f.minusY);
  }

  /** Swapping an axis with its opposite mirrors that in-plane component and
      leaves the out-of-plane component and the load alone. */
  lemma BuildMirror(f: Frame)
    ensures var m := Build(f.(plusX := f.minusX, minusX := f.plusX));
      m.direction == Build(f).direction.(x := -Build(f).direction.x) && m.length == Build(f).length
  {
  }
}

=== FILE: frame_parser.dfy ===
/** Turning one decoded sensor line into a frame, feeding each axis filter as
    its token is parsed, in the order Python evaluates the frame's dict literal. */
module FrameParser {
  import opened Wrappers
  import opened Text
  import opened Axes
  import opened Calibration

  /** The line as split: stripped, every `$` and every `;` removed (not only the
      leading marker and the trailing terminator), stripped again. */
  function Clean(text: string): string {
    Strip(Remove(Remove(Strip(text), '$'), ';'))
  }

  /** The whitespace-separated tokens of the cleaned line. */
  function Tokens(text: string): seq<string> {
    Words(Clean(text))
  }

  /** Python's `token[2:]`: the axis tag is dropped unread, and a token shorter
      than two characters leaves the empty string. */
  function Suffix(token: string): (r: string)
    ensures |token| >= 2 ==> token == token[..2] + r
    ensures |token| < 2 ==> r == ""
  {
    if |token| >= 2 then token[2..] else ""
  }

  /** The reading for axis `k`: None when token `k` is missing (IndexError) or
      its suffix is not a number (ValueError). */
  function Measurement(parseNum: string -> Option<real>, tokens: seq<string>, k: nat): (r: Option<real>)
    ensures k >= |tokens| ==> r.None?
  {
    if k < |tokens| then parseNum(Suffix(tokens[k])) else None
  }

  /** Tokens `lo` to `hi - 1` all exist and parse. */
  predicate Measured(parseNum: string -> Option<real>, tokens: seq<string>, lo: nat, hi: nat) {
    forall i :: lo <= i < hi ==> Measurement(parseNum, tokens, i).Some?
  }

  /** Axis `k`'s filter after it is fed token `k`'s reading, or unchanged when
      there is none. */
  function Advanced(s: Sensor, f: FilterState, tokens: seq<string>, k: nat): FilterState {
    match Measurement(s.parseNum, tokens, k)
    case Some(z) => s.step(f, z).0
    case None => f
  }

  /** The filtered value axis `k`'s filter returns for token `k`'s reading. */
  function Filtered(s: Sensor, f: FilterState, tokens: seq<string>, k: nat): real {
    match Measurement(s.parseNum, tokens, k)
    case Some(z) => s.step(f, z).1
    case None => 0.0
  }

  /** What parsing one line leaves behind: the filters, and the frame if the
      line was accepted. */
  datatype Fed = Fed(filters: Quad<FilterState>, frame: Option<Frame>)

  /** Axes `k` to 3 in order: parse the token, feed the axis filter, subtract the
      offset; the first failure abandons the line with the earlier axes already
      fed. `acc` holds the fields of axes before `k`. */
  function Feed(s: Sensor, filters: Quad<FilterState>, offsets: Quad<real>, tokens: seq<string>,
                k: nat, acc: Frame): (r: Fed)
    requires k <= 4
    ensures r.frame.Some? <==> Measured(s.parseNum, tokens, k, 4)
    ensures forall j :: 0 <= j < 4 ==>
      r.filters.At(j) == if k <= j && Measured(s.parseNum, tokens, k, j + 1)
                         then Advanced(s, filters.At(j), tokens, j) else filters.At(j)
    ensures r.frame.Some? ==> forall j :: 0 <= j < 4 ==>
      r.frame.value.At(j) == if j < k then acc.At(j)
                             else Corrected(Filtered(s, filters.At(j), tokens, j), offsets.At(j))
    decreases 4 - k
  {
    if k == 4 then Fed(filters, Some(acc))
    else
      match Measurement(s.parseNum, tokens, k)
      case None => Fed(filters, None)
      case Some(z) =>
        MeasuredShift(s.parseNum, tokens, k);
        var step := s.step(filters.At(k), z);
        Feed(s, filters.With(k, step.0), offsets, tokens, k + 1, acc.With(k, Corrected(step.1, offsets.At(k))))
  }

  /** Once token `k` parses, the tokens from `k` parse up to any bound exactly
      when those from `k + 1` do. */
  lemma MeasuredShift(parseNum: string -> Option<real>, tokens: seq<string>, k: nat)
    requires Measurement(parseNum, tokens, k).Some?
    ensures forall hi :: k < hi ==> (Measured(parseNum, tokens, k, hi) <==> Measured(parseNum, tokens, k + 1, hi))
  {
  }

  /** One decoded line: a line that is empty once stripped is skipped; any other
      is cleaned, split and fed axis by axis. The result says, per axis, whether
      its filter consumed a reading, and when all four tokens parse, the frame. */
  function ParseLine(s: Sensor, filters: Quad<FilterState>, offsets: Quad<real>, text: string): (r: Fed)
    ensures r.frame.Some? <==> Strip(text) != "" && Measured(s.parseNum, Tokens(text), 0, 4)
    ensures forall j :: 0 <= j < 4 ==>
      r.filters.At(j) == if Strip(text) != "" && Measured(s.parseNum, Tokens(text), 0, j + 1)
                         then Advanced(s, filters.At(j), Tokens(text), j) else filters.At(j)
    ensures r.frame.Some? ==> forall j :: 0 <= j < 4 ==>
      r.frame.value.At(j) == Corrected(Filtered(s, filters.At(j), Tokens(text), j), offsets.At(j))
  {
    if Strip(text) == "" then Fed(filters, None)
    else Feed(s, filters, offsets, Tokens(text), 0, Cleared)
  }

  /** The four filtered values a line's tokens give, axis by axis. */
  function FilteredAll(s: Sensor, filters: Quad<FilterState>, tokens: seq<string>): (q: Quad<real>)
    ensures forall k :: 0 <= k < 4 ==> q.At(k) == Filtered(s, filters.At(k), tokens, k)
  {
    Quad(Filtered(s, filters.plusX, tokens, 0), Filtered(s, filters.minusX, tokens, 1),
         Filtered(s, filters.plusY, tokens, 2), Filtered(s, filters.minusY, tokens, 3))
  }

  /** An accepted line's frame is its four filtered values with the offsets
      applied, so what holds of `Apply` holds of every frame the engine builds. */
  lemma AcceptedFrameIsApplied(s: Sensor, filters: Quad<FilterState>, offsets: Quad<real>, text: string)
    requires ParseLine(s, filters, offsets, text).frame.Some?
    ensures ParseLine(s, filters, offsets, text).frame.value == Apply(FilteredAll(s, filters, Tokens(text)), offsets)
  {
    QuadExt(ParseLine(s, filters, offsets, text).frame.value, Apply(FilteredAll(s, filters, Tokens(text)), offsets));
  }

  /** An accepted line has at least four tokens. */
  lemma AcceptedHasFourTokens(s: Sensor, filters: Quad<FilterState>, offsets: Quad<real>, text: string)
    requires ParseLine(s, filters, offsets, text).frame.Some?
    ensures |Tokens(text)| >= 4
  {
    assert Measurement(s.parseNum, Tokens(text), 3).Some?;
  }

  /** A line that fails at token `i` (missing or not a number) yields no frame;
      the filters of axes before `i` have consumed their readings and the
      others are untouched. */
  lemma FailureAdvancesEarlierAxes(s: Sensor, filters: Quad<FilterState>, offsets: Quad<real>,
                                   text: string, i: nat)
    requires i < 4 && Strip(text) != ""
    requires Measured(s.parseNum, Tokens(text), 0, i)
    requires Measurement(s.parseNum, Tokens(text), i).None?
    ensures ParseLine(s, filters, offsets, text).frame.None?
    ensures forall j :: 0 <= j < i ==>
      ParseLine(s, filters, offsets, text).filters.At(j)
        == s.step(filters.At(j), Measurement(s.parseNum, Tokens(text), j).value).0
    ensures forall j :: i <= j < 4 ==> ParseLine(s, filters, offsets, text).filters.At(j) == filters.At(j)
  {
    var toks := Tokens(text);
    var r := ParseLine(s, filters, offsets, text);
    assert r.frame.None? by {
      assert !Measured(s.parseNum, toks, 0, 4);
    }
    assert forall j :: 0 <= j < i ==>
      r.filters.At(j) == s.step(filters.At(j), Measurement(s.parseNum, toks, j).value).0
    by {
      forall j | 0 <= j < i
        ensures r.filters.At(j) == s.step(filters.At(j), Measurement(s.parseNum, toks, j).value).0
      {
        assert Measured(s.parseNum, toks, 0, j + 1);
      }
    }
    assert forall j :: i <= j < 4 ==> r.filters.At(j) == filters.At(j) by {
      forall j | i <= j < 4 ensures r.filters.At(j) == filters.At(j) {
        assert !Measured(s.parseNum, toks, 0, j + 1) by {
          assert Measurement(s.parseNum, toks, i).None?;
        }
      }
    }
  }

  /** Two token lists whose first four tokens read the same numbers feed the
      filters identically. */
  lemma FeedSameReadings(s: Sensor, filters: Quad<FilterState>, offsets: Quad<real>,
                         t1: seq<string>, t2: seq<string>)
    requires forall k :: 0 <= k < 4 ==> Measurement(s.parseNum, t1, k) == Measurement(s.parseNum, t2, k)
    ensures Feed(s, filters, offsets, t1, 0, Cleared) == Feed(s, filters, offsets, t2, 0, Cleared)
  {
    var r1, r2 := Feed(s, filters, offsets, t1, 0, Cleared), Feed(s, filters, offsets, t2, 0, Cleared);
    forall hi | 0 <= hi <= 4
      ensures Measured(s.parseNum, t1, 0, hi) == Measured(s.parseNum, t2, 0, hi)
    {
    }
    forall j | 0 <= j < 4 ensures r1.filters.At(j) == r2.filters.At(j) {
      assert Advanced(s, filters.At(j), t1, j) == Advanced(s, filters.At(j), t2, j);
    }
    QuadExt(r1.filters, r2.filters);
    if r1.frame.Some? {
      forall j | 0 <= j < 4 ensures r1.frame.value.At(j) == r2.frame.value.At(j) {
        assert Filtered(s, filters.At(j), t1, j) == Filtered(s, filters.At(j), t2, j);
      }
      QuadExt(r1.frame.value, r2.frame.value);
    }
  }

  /** The outcome depends on the tokens only through the suffixes of the first
      four: the two-character tags are never checked and later tokens are never
      read. */
  lemma OnlySuffixesMatter(s: Sensor, filters: Quad<FilterState>, offsets: Quad<real>,
                           text1: string, text2: string)
    requires Strip(text1) != "" && Strip(text2) != ""
    requires |Tokens(text1)| >= 4 && |Tokens(text2)| >= 4
    requires forall k :: 0 <= k < 4 ==> Suffix(Tokens(text1)[k]) == Suffix(Tokens(text2)[k])
    ensures ParseLine(s, filters, offsets, text1) == ParseLine(s, filters, offsets, text2)
  {
    FeedSameReadings(s, filters, offsets, Tokens(text1), Tokens(text2));
  }

  /** A sensor line in wire layout: `$`, the tokens separated by single spaces, `;`. */
  function WireLine(tokens: seq<string>): string {
    "$" + JoinWords(tokens) + ";"
  }

  /** A token the wire layout can carry: non-empty, no whitespace, no delimiter. */
  predicate WireToken(t: string) {
    IsWord(t) && '$' !in t && ';' !in t
  }

  /** Removing the delimiters from a wire line leaves the joined tokens. */
  lemma RemoveDelimiters(tokens: seq<string>)
    requires '$' !in JoinWords(tokens) && ';' !in JoinWords(tokens)
    ensures Remove(Remove(WireLine(tokens), '$'), ';') == JoinWords(tokens)
  {
    var j := JoinWords(tokens);
    var dollar, semi := ['$'], [';'];
    assert WireLine(tokens) == dollar + (j + semi);
    RemoveOnly('$');
    RemoveOnly(';');
    RemoveAppend(dollar, j + semi, '$');
    RemoveAppend(j, semi, '$');
    var once := Remove(dollar + (j + semi), '$');
    assert once == j + semi;
    RemoveAppend(j, semi, ';');
    assert Remove(once, ';') == j + [];
  }

  /** A one-character string of the removed character leaves nothing. */
  lemma RemoveOnly(c: char)
    ensures Remove([c], c) == []
  {
    assert [c][1..] == [];
  }

  /** A wire line starts with `$` and ends with `;`, so stripping keeps it. */
  lemma StripWireLine(tokens: seq<string>)
    ensures Strip(WireLine(tokens)) == WireLine(tokens)
  {
    var line := WireLine(tokens);
    assert line[0] == '$' && line[|line| - 1] == ';';
    StripKeeps(line);
  }

  /** Joined wire tokens carry no delimiter. */
  lemma NoDelimiters(tokens: seq<string>)
    requires forall i :: 0 <= i < |tokens| ==> WireToken(tokens[i])
    ensures '$' !in JoinWords(tokens) && ';' !in JoinWords(tokens)
  {
    NotInJoin(tokens, '$');
    NotInJoin(tokens, ';');
  }

  /** Joined words are kept by stripping. */
  lemma StripJoin(tokens: seq<string>)
    requires |tokens| >= 1
    requires forall i :: 0 <= i < |tokens| ==> IsWord(tokens[i])
    ensures Strip(JoinWords(tokens)) == JoinWords(tokens)
  {
    var j := JoinWords(tokens);
    assert j != [] && !IsSpace(j[0]) && !IsSpace(j[|j| - 1]) by {
      JoinEnds(tokens);
    }
    StripKeeps(j);
  }

  /** Cleaning a wire line whose joined tokens carry no delimiter and no
      outer whitespace leaves exactly those joined tokens, and the line is not
      blank. */
  lemma CleanWireLine(tokens: seq<string>)
    requires '$' !in JoinWords(tokens) && ';' !in JoinWords(tokens)
    requires Strip(JoinWords(tokens)) == JoinWords(tokens)
    ensures Strip(WireLine(tokens)) != ""
    ensures Clean(WireLine(tokens)) == JoinWords(tokens)
  {
    StripWireLine(tokens);
    RemoveDelimiters(tokens);
  }

  /** Round trip of the wire layout: cleaning and splitting a wire line gives
      back exactly its tokens. */
  lemma TokensOfWireLine(tokens: seq<string>)
    requires |tokens| >= 1
    requires forall i :: 0 <= i < |tokens| ==> WireToken(tokens[i])
    ensures Strip(WireLine(tokens)) != ""
    ensures Tokens(WireLine(tokens)) == tokens
  {
    NoDelimiters(tokens);
    StripJoin(tokens);
    CleanWireLine(tokens);
    WordsOfJoin(tokens);
  }

  /** The join of words starts and ends with non-whitespace. */
  lemma {:induction false} JoinEnds(ws: seq<string>)
    requires |ws| >= 1
    requires forall i :: 0 <= i < |ws| ==> IsWord(ws[i])
    ensures var j := JoinWords(ws); j != [] && !IsSpace(j[0]) && !IsSpace(j[|j| - 1])
  {
    if |ws| > 1 {
      JoinEnds(ws[1..]);
      var tail := JoinWords(ws[1..]);
      assert JoinWords(ws) == ws[0] + " " + tail;
      assert JoinWords(ws)[|JoinWords(ws)| - 1] == tail[|tail| - 1];
    }
  }

  /** A well-formed sensor line `$+x<a> -x<b> +y<c> -y<d>;` with four numeric
      suffixes gives the frame whose fields are each axis filter's output for
      its number less that axis's offset, and feeds every filter once. */
  lemma WireLineFrame(s: Sensor, filters: Quad<FilterState>, offsets: Quad<real>,
                      tags: Quad<string>, values: Quad<string>, readings: Quad<real>)
    requires forall k :: 0 <= k < 4 ==> |tags.At(k)| == 2 && WireToken(tags.At(k) + values.At(k))
    requires forall k :: 0 <= k < 4 ==> s.parseNum(values.At(k)) == Some(readings.At(k))
    ensures var r := ParseLine(s, filters, offsets, WireLine(FrameTokens(tags, values)));
      && r.frame.Some?
      && (forall k :: 0 <= k < 4 ==>
            r.frame.value.At(k) == Corrected(s.step(filters.At(k), readings.At(k)).1, offsets.At(k)))
      && (forall k :: 0 <= k < 4 ==> r.filters.At(k) == s.step(filters.At(k), readings.At(k)).0)
  {
    var toks := FrameTokens(tags, values);
    var text := WireLine(toks);
    FrameTokensReadings(s, tags, values, readings);
    TokensOfWireLine(toks);
    ReadingsFeed(s, filters, offsets, toks, readings);
    assert ParseLine(s, filters, offsets, text) == Feed(s, filters, offsets, toks, 0, Cleared);
  }

  /** Tokens whose first four read the given numbers feed each axis its own
      reading and give a frame. */
  lemma ReadingsFeed(s: Sensor, filters: Quad<FilterState>, offsets: Quad<real>, toks: seq<string>, readings: Quad<real>)
    requires forall k :: 0 <= k < 4 ==> Measurement(s.parseNum, toks, k) == Some(readings.At(k))
    ensures var r := Feed(s, filters, offsets, toks, 0, Cleared);
      && r.frame.Some?
      && (forall k :: 0 <= k < 4 ==>
            r.frame.value.At(k) == Corrected(s.step(filters.At(k), readings.At(k)).1, offsets.At(k)))
      && (forall k :: 0 <= k < 4 ==> r.filters.At(k) == s.step(filters.At(k), readings.At(k)).0)
  {
    var r := Feed(s, filters, offsets, toks, 0, Cleared);
    assert r.frame.Some? by {
      assert Measured(s.parseNum, toks, 0, 4);
    }
    assert forall k :: 0 <= k < 4 ==>
      r.frame.value.At(k) == Corrected(s.step(filters.At(k), readings.At(k)).1, offsets.At(k))
    by {
      forall k | 0 <= k < 4
        ensures Filtered(s, filters.At(k), toks, k) == s.step(filters.At(k), readings.At(k)).1
      {
        assert Measurement(s.parseNum, toks, k) == Some(readings.At(k));
      }
    }
    assert forall k :: 0 <= k < 4 ==> r.filters.At(k) == s.step(filters.At(k), readings.At(k)).0 by {
      forall k | 0 <= k < 4 ensures r.filters.At(k) == s.step(filters.At(k), readings.At(k)).0 {
        assert Measured(s.parseNum, toks, 0, k + 1);
        assert Measurement(s.parseNum, toks, k) == Some(readings.At(k));
      }
    }
  }

  /** Each frame token's suffix is its number, so each axis reads its reading. */
  lemma FrameTokensReadings(s: Sensor, tags: Quad<string>, values: Quad<string>, readings: Quad<real>)
    requires forall k :: 0 <= k < 4 ==> |tags.At(k)| == 2 && WireToken(tags.At(k) + values.At(k))
    requires forall k :: 0 <= k < 4 ==> s.parseNum(values.At(k)) == Some(readings.At(k))
    ensures forall i :: 0 <= i < 4 ==> WireToken(FrameTokens(tags, values)[i])
    ensures forall k :: 0 <= k < 4 ==> Measurement(s.parseNum, FrameTokens(tags, values), k) == Some(readings.At(k))
  {
    var toks := FrameTokens(tags, values);
    forall k | 0 <= k < 4 ensures Suffix(toks[k]) == values.At(k) {
      assert (tags.At(k) + values.At(k))[2..] == values.At(k);
    }
  }

  /** The four tokens of a frame line: each axis's tag followed by its number. */
  function FrameTokens(tags: Quad<string>, values: Quad<string>): (r: seq<string>)
    ensures |r| == 4 && forall k :: 0 <= k < 4 ==> r[k] == tags.At(k) + values.At(k)
  {
    [tags.plusX + values.plusX, tags.minusX + values.minusX,
     tags.plusY + values.plusY, tags.minusY + values.minusY]
  }
}

=== FILE: history.dfy ===
/** The bounded history of recent readings: append at the tail, evicting the
    oldest entry once the buffer holds `capacity` entries. */
module History {
  import opened Wrappers

  /** `buffer[-1]` on an empty list. */
  datatype HistoryError = IndexError

  /** Append, then drop the head when the buffer was already at (or over)
      capacity. With a capacity of at least 1 and a buffer within it, the result
      stays within capacity, ends with the new entry, and loses the oldest
      entry exactly when the buffer was full. A capacity of 0 or less keeps an
      empty buffer empty. */
  function Push<E>(buffer: seq<E>, capacity: int, e: E): (r: seq<E>)
    ensures capacity <= |buffer| ==> |r| == |buffer|
    ensures |buffer| < capacity ==> |r| == |buffer| + 1
    ensures 1 <= capacity && |buffer| <= capacity ==> 1 <= |r| <= capacity && r[|r| - 1] == e
    ensures 1 <= |buffer| && capacity <= |buffer| ==> r[..|r| - 1] == buffer[1..]
    ensures |buffer| < capacity ==> r[..|r| - 1] == buffer
    ensures capacity <= 0 && buffer == [] ==> r == []
  {
    if |buffer| >= capacity then (buffer + [e])[1..] else buffer + [e]
  }

  /** `buffer[-1]`: the newest entry, or IndexError on an empty buffer. */
  function Latest<E>(buffer: seq<E>): (r: Result<E, HistoryError>)
    ensures r.Failure? <==> buffer == []
    ensures r.Success? ==> r.value == buffer[|buffer| - 1]
  {
    if buffer == [] then Failure(IndexError) else Success(buffer[|buffer| - 1])
  }

  /** The entry just pushed is the latest. */
  lemma LatestAfterPush<E>(buffer: seq<E>, capacity: int, e: E)
    ensures 1 <= capacity && |buffer| <= capacity ==> Latest(Push(buffer, capacity, e)) == Success(e)
  {
  }

  /** Entries pushed one after another, oldest first. */
  function PushAll<E>(buffer: seq<E>, capacity: int, es: seq<E>): seq<E>
    decreases |es|
  {
    if es == [] then buffer
    else Push(PushAll(buffer, capacity, es[..|es| - 1]), capacity, es[|es| - 1])
  }

  /** The newest `n` entries of `s` (all of them when there are fewer). */
  function Newest<E>(s: seq<E>, n: nat): (r: seq<E>)
    ensures |r| <= n && |r| <= |s|
  {
    if |s| <= n then s else s[|s| - n..]
  }

  /** Eviction keeps a sliding window: after any run of pushes the buffer holds
      exactly the newest `capacity` entries of everything it has seen, oldest
      first. */
  lemma {:induction false} PushAllKeepsNewest<E>(buffer: seq<E>, capacity: int, es: seq<E>)
    requires 1 <= capacity && |buffer| <= capacity
    ensures PushAll(buffer, capacity, es) == Newest(buffer + es, capacity)
  {
    if es == [] {
      assert buffer + es == buffer;
    } else {
      var init, e := es[..|es| - 1], es[|es| - 1];
      PushAllKeepsNewest(buffer, capacity, init);
      assert buffer + es == (buffer + init) + [e];
      PushNewest(buffer + init, capacity, e);
    }
  }

  /** One push onto a window of `x` is the window of `x + [e]`. */
  lemma PushNewest<E>(x: seq<E>, capacity: int, e: E)
    requires 1 <= capacity
    ensures Push(Newest(x, capacity), capacity, e) == Newest(x + [e], capacity)
  {
    var w := Newest(x, capacity);
    if |x| >= capacity {
      assert (w + [e])[1..] == (x + [e])[|x| + 1 - capacity..];
    }
  }

  /** With the default capacity of 5, six pushes leave the last five in order,
      and the sixth is the latest. */
  lemma SixIntoFive<E>(a: E, b: E, c: E, d: E, e: E, f: E)
    ensures PushAll([], 5, [a, b, c, d, e, f]) == [b, c, d, e, f]
    ensures Latest(PushAll([], 5, [a, b, c, d, e, f])) == Success(f)
  {
    PushAllKeepsNewest([], 5, [a, b, c, d, e, f]);
    assert [] + [a, b, c, d, e, f] == [a, b, c, d, e, f];
  }
}

=== FILE: text.dfy ===
/** The string operations the frame parser relies on, with Python's meaning:
    `str.strip()`, `str.replace(c, '')` and `str.split()` with no argument. */
module Text {

  /** The characters for which Python's `str.isspace()` holds; `strip()` and
      `split()` with no argument both use this set. */
  predicate IsSpace(c: char) {
    var n := c as int;
    || n == 0x20 || 0x09 <= n <= 0x0D || 0x1C <= n <= 0x1F
    || n == 0x85 || n == 0xA0 || n == 0x1680 || 0x2000 <= n <= 0x200A
    || n == 0x2028 || n == 0x2029 || n == 0x202F || n == 0x205F || n == 0x3000
  }

  /** The shape of every piece `split()` returns: non-empty, no whitespace. */
  predicate IsWord(w: string) {
    |w| > 0 && forall i :: 0 <= i < |w| ==> !IsSpace(w[i])
  }

  /** Leading whitespace removed: the longest suffix that does not start with whitespace. */
  function TrimLeft(s: string): (r: string)
    ensures |r| <= |s| && r == s[|s| - |r|..]
    ensures forall i :: 0 <= i < |s| - |r| ==> IsSpace(s[i])
    ensures r == [] || !IsSpace(r[0])
  {
    if s != [] && IsSpace(s[0]) then TrimLeft(s[1..]) else s
  }

  /** Trailing whitespace removed: the longest prefix that does not end with whitespace. */
  function TrimRight(s: string): (r: string)
    ensures |r| <= |s| && r == s[..|r|]
    ensures forall i :: |r| <= i < |s| ==> IsSpace(s[i])
    ensures r == [] || !IsSpace(r[|r| - 1])
  {
    if s != [] && IsSpace(s[|s| - 1]) then TrimRight(s[..|s| - 1]) else s
  }

  /** `s.strip()`. */
  function Strip(s: string): (r: string)
    ensures |r| <= |s|
    ensures r == [] || (!IsSpace(r[0]) && !IsSpace(r[|r| - 1]))
    ensures exists i :: Surrounded(s, r, i)
  {
    var left := TrimLeft(s);
    SurroundedSlice(s, left, TrimRight(left), |s| - |left|);
    TrimRight(left)
  }

  /** A prefix of a suffix, with whitespace before the suffix and after the
      prefix, is surrounded by whitespace. */
  lemma SurroundedSlice(s: string, left: string, r: string, i: int)
    requires 0 <= i <= |s| && left == s[i..]
    requires |r| <= |left| && r == left[..|r|]
    requires forall k :: 0 <= k < i ==> IsSpace(s[k])
    requires forall k :: |r| <= k < |left| ==> IsSpace(left[k])
    ensures Surrounded(s, r, i)
  {
    assert s[i..][..|r|] == s[i..i + |r|];
    forall k | i + |r| <= k < |s|
      ensures IsSpace(s[k])
    {
      assert s[k] == left[k - i];
    }
  }

  /** `s` is `r` starting at `i`, with only whitespace before and after it. */
  predicate Surrounded(s: string, r: string, i: int) {
    && 0 <= i <= |s| - |r| && r == s[i..i + |r|]
    && (forall k :: 0 <= k < i ==> IsSpace(s[k]))
    && (forall k :: i + |r| <= k < |s| ==> IsSpace(s[k]))
  }

  /** A string that already starts and ends with non-whitespace is its own strip. */
  lemma StripKeeps(s: string)
    requires s != [] && !IsSpace(s[0]) && !IsSpace(s[|s| - 1])
    ensures Strip(s) == s
  {
  }

  /** Strip yields the empty string exactly when the input is all whitespace. */
  lemma StripEmpty(s: string)
    ensures Strip(s) == [] <==> forall i :: 0 <= i < |s| ==> IsSpace(s[i])
  {
    var t := TrimLeft(s);
    assert t == [] || t[0] == s[|s| - |t|];
  }

  /** `s.replace(c, '')`: every occurrence of `c` is dropped, not only those at
      the ends, and everything else keeps its order. */
  function Remove(s: string, c: char): (r: string)
    ensures c !in r
    ensures |r| <= |s|
    ensures c !in s ==> r == s
  {
    if s == [] then []
    else (if s[0] == c then [] else [s[0]]) + Remove(s[1..], c)
  }

  /** Every other character survives removal, as often as it occurred. */
  lemma {:induction false} RemoveKeepsOthers(s: string, c: char)
    ensures forall x :: x != c ==> multiset(Remove(s, c))[x] == multiset(s)[x]
  {
    if s != [] {
      RemoveKeepsOthers(s[1..], c);
      assert s == [s[0]] + s[1..];
    }
  }

  /** Removal works piecewise on a concatenation. */
  lemma {:induction false} RemoveAppend(a: string, b: string, c: char)
    ensures Remove(a + b, c) == Remove(a, c) + Remove(b, c)
  {
    if a == [] {
      assert a + b == b;
    } else {
      assert (a + b)[0] == a[0];
      assert (a + b)[1..] == a[1..] + b;
      RemoveAppend(a[1..], b, c);
    }
  }

  /** Length of the run of non-whitespace at the head of `s`. */
  function WordLen(s: string): (n: nat)
    ensures n <= |s|
    ensures forall i :: 0 <= i < n ==> !IsSpace(s[i])
    ensures n == |s| || IsSpace(s[n])
    ensures s != [] && !IsSpace(s[0]) ==> n >= 1
  {
    if s == [] || IsSpace(s[0]) then 0 else 1 + WordLen(s[1..])
  }

  /** `s.split()`: the maximal whitespace-free runs of `s`, in order. */
  function Words(s: string): seq<string>
    decreases |s|
  {
    var t := TrimLeft(s);
    if t == [] then []
    else
      var n := WordLen(t);
      [t[..n]] + Words(t[n..])
  }

  /** The run at the head of a string that starts with a non-space is a word. */
  lemma HeadRunIsWord(t: string)
    requires t != [] && !IsSpace(t[0])
    ensures IsWord(t[..WordLen(t)])
  {
    var w := t[..WordLen(t)];
    forall i | 0 <= i < |w| ensures !IsSpace(w[i]) {
      assert w[i] == t[i];
    }
  }

  /** Every piece `split()` returns is non-empty and free of whitespace. */
  lemma {:induction false} WordsAreWords(s: string)
    ensures forall i :: 0 <= i < |Words(s)| ==> IsWord(Words(s)[i])
    decreases |s|
  {
    var t := TrimLeft(s);
    if t != [] {
      var n := WordLen(t);
      var ws := Words(s);
      var rest := Words(t[n..]);
      assert ws == [t[..n]] + rest;
      HeadRunIsWord(t);
      WordsAreWords(t[n..]);
      forall i | 0 <= i < |ws| ensures IsWord(ws[i]) {
        if i > 0 {
          assert ws[i] == rest[i - 1];
        }
      }
    }
  }

  /** The words separated by single spaces, the layout of a sensor line. */
  function JoinWords(ws: seq<string>): string {
    if ws == [] then ""
    else if |ws| == 1 then ws[0]
    else ws[0] + " " + JoinWords(ws[1..])
  }

  /** A word followed by whitespace (or nothing) is read as exactly that word. */
  lemma {:induction false} WordLenOfWord(w: string, rest: string)
    requires forall i :: 0 <= i < |w| ==> !IsSpace(w[i])
    requires rest == [] || IsSpace(rest[0])
    ensures WordLen(w + rest) == |w|
  {
    if w != [] {
      assert (w + rest)[1..] == w[1..] + rest;
      WordLenOfWord(w[1..], rest);
    } else {
      assert w + rest == rest;
    }
  }

  /** Whitespace in front of a string adds no word. */
  lemma WordsSpaceFirst(t: string)
    ensures Words(" " + t) == Words(t)
  {
    assert (" " + t)[1..] == t;
  }

  /** A lone word splits into itself. */
  lemma WordsOfWord(w: string)
    requires IsWord(w)
    ensures Words(w) == [w]
  {
    WordLenOfWord(w, []);
    assert w + [] == w;
    assert w[|w|..] == [];
  }

  /** A word followed by a space is split off as the first word. */
  lemma WordsOfWordThenSpace(w: string, tail: string)
    requires IsWord(w)
    ensures Words(w + " " + tail) == [w] + Words(tail)
  {
    var s := w + " " + tail;
    assert s == w + (" " + tail);
    WordLenOfWord(w, " " + tail);
    assert TrimLeft(s) == s;
    assert s[..|w|] == w;
    assert s[|w|..] == " " + tail;
    WordsSpaceFirst(tail);
  }

  /** Unfolds one step of the join of at least two words. */
  lemma JoinWordsCons(ws: seq<string>)
    requires |ws| >= 2
    ensures JoinWords(ws) == ws[0] + " " + JoinWords(ws[1..])
    ensures ws == [ws[0]] + ws[1..]
  {
  }

  /** Round trip: splitting words joined by single spaces gives the words back. */
  lemma {:induction false} WordsOfJoin(ws: seq<string>)
    requires forall i :: 0 <= i < |ws| ==> IsWord(ws[i])
    ensures Words(JoinWords(ws)) == ws
  {
    if ws == [] {
    } else if |ws| == 1 {
      WordsOfWord(ws[0]);
    } else {
      var rest := ws[1..];
      WordsOfJoin(rest);
      JoinWordsCons(ws);
      WordsOfWordThenSpace(ws[0], JoinWords(rest));
    }
  }

  /** A character other than the space separator that occurs in no word does not
      occur in their join. */
  lemma {:induction false} NotInJoin(ws: seq<string>, c: char)
    requires c != ' '
    requires forall i :: 0 <= i < |ws| ==> c !in ws[i]
    ensures c !in JoinWords(ws)
  {
    if |ws| > 1 {
      NotInJoin(ws[1..], c);
    }
  }
}

=== FILE: wrappers.dfy ===
/** Failure-carrying wrappers used across the model: Option for "maybe a value",
    Result for an operation that can raise an error the caller sees. */
module Wrappers {

  datatype Option<+T> = None | Some(value: T)

  datatype Result<+R, +E> = Success(value: R) | Failure(error: E)
}
